=== FILE: README.md ===
# Device worker core of the SD miner, modelled in Dafny

The SD miner is a job-polling worker for a distributed inference
marketplace. One worker runs per GPU and loops forever. Each pass first
asks the coordinator, at most once per reload interval, whether it should
swap its model. It then asks for a job, executes and submits the job if it
got one, and sleeps when it got nothing. This project models the
sequential decision logic of that worker in
`miner-release/sd-miner-v1.1.0.py`:

- how the `MINER_ID_<i>` environment variables are validated and which
  one a device uses;
- the 60-second heartbeat gate on job requests;
- how the operator warning is cut out of a reply;
- how a job is recognised;
- the throttled reload check (`check_and_reload_model`);
- `process_jobs`;
- one pass of `main`'s loop, and runs of many passes.

Everything the worker gets from outside is an explicit input, collected
per pass in a `World`:

- the clock, with one input per `time.time()` read;
- the coordinator's replies;
- the local model ids and loaded models;
- whether an external call raised.

Results that Python signals with `None` or with an exception are data:
`Option`, `Result`, `Raised`, `JobsRaised`.

Modules, one per concern of the source:

| file | module | models |
|---|---|---|
| `outcomes.dfy` | `Outcomes` | Python's `None` and raised exceptions as data |
| `pytext.dfy` | `PyText` | `pat in s`, `s.split(sep)[1]`, `s.strip(c)` |
| `miner_config.dfy` | `MinerConfig` | `_load_and_validate_miner_ids`, `_assign_miner_id` |
| `miner_request.dfy` | `MinerRequest` | `send_miner_request`: heartbeat gate, warning, job recognition |
| `model_reload.dfy` | `ModelReload` | `check_and_reload_model` |
| `worker.dfy` | `Worker` | `process_jobs`, the loop body of `main`, runs of the loop |

## Modelling decisions

- Timestamps are `real` values. Each clock read is its own input:
  - the staleness test (line 61) and the stored heartbeat stamp (line 64)
    are two reads;
  - so are the reads around the HTTP call (lines 67 and 69) and the job
    start (line 127).
- The clock is not assumed to be monotonic. The run lemmas that need an
  ordering state it as a hypothesis: the heartbeat stamp of a pass is read
  no earlier than its staleness test, and the reload interval is not
  negative.
- Truthiness:
  - `bool(response)` is false for `None` and for an HTTP response whose
    status is 4xx or 5xx. This is how a `requests` response converts to a
    boolean.
  - `bool(response_data)` is false for `None` and for the empty object.
- `sys.exit(0)` raises `SystemExit`, which `except Exception` in `main`
  does not catch. An empty local model list therefore ends the worker: it
  is not counted as an idle pass.
- An exception inside `check_and_reload_model` reaches `main` before
  line 148 assigns `last_signal_time`. Such an exception comes from a
  failed signal call, an undecodable reply body or a failed swap. The
  check then leaves `last_signal_time` unchanged, even though the signal
  endpoint was called (`Step`, `SignalThrottle`).
- `config.last_heartbeat` is written on line 64, before the HTTP call. A
  request that then raises still moves the heartbeat window (`Step`,
  `SendMinerRequest`).
- `reload_model` appears only as a `SwapRequested` event. It is not
  assumed to change the loaded models. The loaded and local model lists
  are read twice per pass: once by the check and once by `process_jobs`.
  Both reads are inputs.

### Behaviour of the code worth knowing

- **Reload timestamp.** `check_and_reload_model` returns `current_time`
  (line 113) whenever the interval elapsed, whatever the reply was. The
  reassignment on line 108 therefore never changes the result. The
  timestamp does not move when the check raises.
- **Miner ids.** Validation (lines 33-38) rejects only unset ids:
  - an empty id passes validation;
  - on a multi-device host, an empty device id falls back to id 0, so two
    devices can share an id (`MinerConfig.EmptyDeviceIdFallsBack`);
  - with `num_cuda_devices` of 0, the list is empty and `miner_ids[0]`
    raises `IndexError`.
- **Job submission.** `process_jobs` tries to submit any truthy reply
  (lines 123-130), whether or not it was announced as a job on lines 83-85. A
  truthy reply that lacks `job_id`, `model_id` or `temp_credentials`
  raises `KeyError`, which `main` counts as a pass that did not execute
  (`Worker.HandleReply`).

## Model

| member | source | states |
|---|---|---|
| PyText.FindFrom | miner-release/sd-miner-v1.1.0.py:74 | finds the first occurrence of the pattern at or after a position, or reports that none exists; this is what `in` on line 74 decides |
| PyText.SecondPiece | miner-release/sd-miner-v1.1.0.py:76 | `split(marker)[1]` exists exactly when the marker occurs; it is the text that starts right after the first marker and runs up to the next occurrence of the marker, or to the end when there is none: no occurrence starts inside it, and it contains no marker |
| PyText.Strip | miner-release/sd-miner-v1.1.0.py:76 | `strip('"')` returns the slice of its input that starts where the leading run of `"` ends; the slice neither begins nor ends with `"`, and everything removed on either side is `"` |
| PyText.StripUnpads | miner-release/sd-miner-v1.1.0.py:76 | stripping any run of `"` from both sides of a text that neither begins nor ends with `"` gives that text back |
| PyText.PieceFrom | miner-release/sd-miner-v1.1.0.py:76 | the piece of `split(sep)` that starts at a position runs up to the next occurrence of `sep` or to the end, and contains no `sep` |
| MinerConfig.LoadMinerIds | miner-release/sd-miner-v1.1.0.py:32 | one entry per device index below `num_cuda_devices` (none for a count of 0 or less); an entry is set exactly when its variable is, and then holds that variable's value |
| MinerConfig.LoadIdentity | miner-release/sd-miner-v1.1.0.py:24-29 | construction raises on an unset variable exactly when one below `num_cuda_devices` is unset, naming the first; when it succeeds, every variable is set, the id is a non-empty value of one of them, and the warnings name exactly the ids without `0x` |
| MinerConfig.ValidateFrom | miner-release/sd-miner-v1.1.0.py:33-39 | the validation loop from an index on: raises on the first unset id after that index, otherwise returns the remaining ids unwrapped in order; warns, in increasing index order, about exactly the set ids it reaches that lack `0x` |
| MinerConfig.ValidateMinerIds | miner-release/sd-miner-v1.1.0.py:31-39 | raises exactly when some id among the first `num_cuda_devices` is unset, and names the first unset one; otherwise returns every id unchanged; ids without `0x` only produce warnings, one per id the loop reaches, in index order |
| MinerConfig.AssignMinerId | miner-release/sd-miner-v1.1.0.py:41-48 | an assigned id is non-empty and is one of the ids; with more than one device, the device's own non-empty id wins, a negative device index counting from the end as in Python; otherwise id 0 is used if it is non-empty, and an empty id 0 raises; IndexError exactly when the list is indexed out of range |
| MinerConfig.ConfiguredDeviceIdentity | miner-release/sd-miner-v1.1.0.py:24-48 | for a configured device: construction fails on an unset variable exactly when one exists, reporting the first; once all are set it never hits IndexError, and it picks the device's own id (several devices, non-empty) or id 0, failing only when the chosen id is empty; warnings name exactly the ids without `0x` |
| MinerConfig.EmptyDeviceIdFallsBack | miner-release/sd-miner-v1.1.0.py:41-45 | on a multi-device host, a device whose id is the empty string is given id 0 |
| MinerRequest.BuildRequest | miner-release/sd-miner-v1.1.0.py:55-64 | every request carries the miner id, model id and minimum deadline; hardware and version are attached exactly when at least 60 s passed since the last heartbeat; `last_heartbeat` becomes the second clock read then, and is untouched otherwise |
| MinerRequest.HeartbeatOncePerPeriod | miner-release/sd-miner-v1.1.0.py:61-64 | after a heartbeat stamped at `t`, the next request attaches one exactly when its clock read is at least `t + 60` |
| MinerRequest.ExtractWarning | miner-release/sd-miner-v1.1.0.py:73-77 | a warning exists exactly when the reply is truthy and its text contains `Warning:`; it is the piece of the text from the end of the first marker to the next marker (or the end) with the surrounding `"` stripped: a slice of that piece with only `"` outside it, neither beginning nor ending with `"`, and containing no marker |
| MinerRequest.WarningRoundTrip | miner-release/sd-miner-v1.1.0.py:73-77 | for a truthy reply whose text is marker-free text, then `Warning:`, then a message with no marker, bare or wrapped in any number of `"` on either side: the warning is exactly that message |
| MinerRequest.PieceBeforeNextMarker | miner-release/sd-miner-v1.1.0.py:76 | `split("Warning:")[1]` of a text whose first two markers enclose marker-free text is exactly that text, whatever follows the second marker |
| MinerRequest.WarningStopsAtNextMarker | miner-release/sd-miner-v1.1.0.py:73-77 | when a second `Warning:` follows the message, the warning is the message between the first two markers, bare or wrapped in `"`, and nothing after the second marker |
| MinerRequest.RecognizeJob | miner-release/sd-miner-v1.1.0.py:82-86 | a reply is announced as a job exactly when it is a non-empty object with both `job_id` and `model_id`, and the announcement carries those two values |
| MinerRequest.SendMinerRequest | miner-release/sd-miner-v1.1.0.py:55-90 | the request and the heartbeat update are decided before the HTTP call and stand even when it raises; a reply carries the decoded data, the latency between the two clock reads, the warning of the raw response and the job recognition of the data |
| ModelReload.CheckAndReloadModel | miner-release/sd-miner-v1.1.0.py:92-113 | the signal endpoint is called exactly when `now - last_signal_time >= reload_interval`; a swap is requested exactly when it was called, answered 200, and the signalled model is local and not loaded; it raises only after the call (HTTP failure, undecodable body, failed swap); when it returns, the timestamp is `now` if the endpoint was called and the old one otherwise, whatever the reply |
| ModelReload.TimestampIgnoresReply | miner-release/sd-miner-v1.1.0.py:108-113 | two checks from the same timestamp at the same time return the same new timestamp, whatever the replies, the local or loaded models, and whether a swap was requested |
| ModelReload.NoSwapForLoadedOrForeign | miner-release/sd-miner-v1.1.0.py:102-107 | a signalled model that is already loaded, or not stored locally, never triggers a swap |
| Worker.HandleReply | miner-release/sd-miner-v1.1.0.py:123-130 | a falsy reply is "no job"; a truthy one executes exactly when it has `job_id`, `model_id` and `temp_credentials` and the submission does not raise; the submission (job, credentials, start time, latency) is the last event; the reply's warning is printed (a `Warned` event) exactly when it has one, and then as the first event; an `Announced` event appears exactly when the reply was recognised as a job, and carries that job; no request or reload event is produced |
| Worker.ProcessJobs | miner-release/sd-miner-v1.1.0.py:115-130 | exits exactly when no model is stored locally, before any request; otherwise the request is the first and only request event, for the first loaded model (or none); returns False exactly on a falsy reply and True exactly when the job was submitted; the heartbeat update stands on every path |
| Worker.Step | miner-release/sd-miner-v1.1.0.py:146-154 | one pass: the signal endpoint is called exactly when the interval elapsed, and the call is then the pass's first event; a swap is requested exactly for the model `check_and_reload_model` swaps to; the check raises exactly when `check_and_reload_model` raises, and then both timestamps stay unchanged and no job request is made; the process exits exactly when the check returned and no model is local; it executes exactly when the check returned and `process_jobs` submitted a job; it sleeps `sleep_duration` exactly when it neither executed nor exited |
| Worker.StepMakesRequest | miner-release/sd-miner-v1.1.0.py:115-122 | a pass makes a job request exactly when its reload check returned and a model is stored locally; when the check returned and the process did not exit, the request `process_jobs` built is among the pass's events |
| Worker.StepOrdersReloadFirst | miner-release/sd-miner-v1.1.0.py:146-149 | within a pass no signal call or swap request follows the job request, and every request asks for the first model loaded when `process_jobs` read the list |
| Worker.ExecutedMeansSubmitted | miner-release/sd-miner-v1.1.0.py:122-130 | a pass counts as executed only if the reply was a non-empty object with `job_id`, `model_id` and `temp_credentials`, and its last event submits that job with the job start time and request latency |
| Worker.ExecutedWasAnnounced | miner-release/sd-miner-v1.1.0.py:83-86 | every executed job was announced, with the `job_id` and `model_id` of the reply, in the same pass |
| Worker.Run | miner-release/sd-miner-v1.1.0.py:146-154 | a run takes one pass per world until the worker exits: each pass starts from the state the previous one left, only the last pass can exit, and a run shorter than its worlds ended by exiting |
| Worker.RunIsSteps | miner-release/sd-miner-v1.1.0.py:146-154 | pass `k` of a run is exactly the loop body applied to the state it starts from and the `k`-th world |
| Worker.StepTimestampsGrow | miner-release/sd-miner-v1.1.0.py:55-113 | one pass never moves `last_signal_time` back when the interval is not negative, and never moves `last_heartbeat` back when the stamp follows its staleness test |
| Worker.RunTimestampsGrow | miner-release/sd-miner-v1.1.0.py:145-154 | along a run, a later pass starts with timestamps at least as large as those an earlier pass left |
| Worker.SignalThrottle | miner-release/sd-miner-v1.1.0.py:92-154 | after a check that called the signal endpoint and did not raise, the next call in the run comes at least one reload interval later |
| Worker.HeartbeatThrottle | miner-release/sd-miner-v1.1.0.py:55-64 | two requests in a run that both carry hardware and version are at least 60 s apart, from the earlier stamp to the later staleness test |
| Worker.FirstSignalWaitsOneInterval | miner-release/sd-miner-v1.1.0.py:145-148 | starting from `main`'s startup clock read, no pass calls the signal endpoint before one full reload interval has passed |

## Left out

- Supervisor (lines 156-199): CUDA device counting and `check_cuda`,
  process spawning, signal handlers, the `ModelUpdater` thread and joining.
  These concern hardware, concurrency and process lifecycle, not the
  worker's decisions.
- `main`'s setup before the loop (lines 134-143): device binding, logging
  set-up, config-file download and default-model loading. All of it is
  external library calls. The loop's initial state is `Worker.Initial`.
- `BaseConfig` and the `config.toml` fields it reads. They are a `Config`
  value; the initial `last_heartbeat` is an input.
- `load_dotenv` and `os.getenv`: the environment is a map from device
  index to value.
- `post_request`, `log_response`, `get_local_model_ids`,
  `get_hardware_description`, `reload_model` and `submit_job_result`: the
  library that defines them is not part of this model. Their results are
  inputs. `post_request`, `reload_model`, `submit_job_result` and the JSON
  decoding of the signal reply may raise in the model. `log_response`,
  `get_local_model_ids` and `get_hardware_description` are assumed to
  return.
- Printing, logging and `time.sleep`: I/O. The model records what would
  be printed as events (`Warned`, `Announced`) and the sleep as a
  duration. Warnings about ids record the index, not the message text.
- A negative `sleep_duration`: `time.sleep` would raise `ValueError` on
  line 154, outside the `try` of lines 147-152, and end the worker. The
  model records the sleep as a duration and does not model that exit; it
  takes `sleep_duration` to be non-negative.
- `logging.error` in the swallowed `except` on lines 87-88: recognising a
  job only reads keys of an object, which cannot raise in the model.
- A reply decoded to something other than a JSON object (`response_data`
  being a list or a string): `log_response` is taken to return an object
  or `None`.
- Floating-point timestamps: time is exact `real` arithmetic, so rounding
  in `time.time()` differences is not modelled.

=== FILE: miner_config.dfy ===
/** Miner identity for one device worker: reading the `MINER_ID_<i>`
    variables, validating them, and picking the id this device uses
    (`MinerConfig._load_and_validate_miner_ids` and `_assign_miner_id`). */
module MinerConfig {
  import opened Outcomes

  /** The `MINER_ID_<i>` environment variables: key `i` holds the value of
      `MINER_ID_<i>`; a missing key is an unset variable (`os.getenv` gives `None`). */
  type Env = map<int, string>

  /** Why building the configuration raised. */
  datatype ConfigError =
    | MissingMinerId(device: nat)  // ValueError: MINER_ID_<device> is unset
    | NoMinerId                    // ValueError: the chosen id and id 0 are both empty
    | IndexOutOfRange              // IndexError from indexing the id list

  /** `[os.getenv(f'MINER_ID_{i}') for i in range(num_cuda_devices)]`. */
  function LoadMinerIds(env: Env, numDevices: int): (ids: seq<Option<string>>)
    ensures |ids| == if numDevices > 0 then numDevices else 0
    ensures forall i :: 0 <= i < |ids| ==> (ids[i].Some? <==> i in env)
    ensures forall i :: 0 <= i < |ids| && ids[i].Some? ==> ids[i].value == env[i]
  {
    seq(if numDevices > 0 then numDevices else 0, i => if i in env then Some(env[i]) else None)
  }

  /** Python's `miner_id.startswith("0x")`. */
  predicate HasHexPrefix(id: string)
  {
    |id| >= 2 && id[..2] == "0x"
  }

  /** Index `d` is the first unset id: the one the validation loop raises on. */
  predicate FirstMissing(ids: seq<Option<string>>, d: nat)
  {
    d < |ids| && ids[d].None? && forall j :: 0 <= j < d ==> ids[j].Some?
  }

  /** The validation loop reaches index `d` (every earlier id is set), finds
      it set, and prints a warning because it lacks the `0x` prefix. */
  predicate WarnedAbout(ids: seq<Option<string>>, d: nat)
  {
    d < |ids| && ids[d].Some? && !HasHexPrefix(ids[d].value)
    && forall j :: 0 <= j < d ==> ids[j].Some?
  }

  /** What validation produced: the ids (or the error it raised) and the
      indices it warned about, in the order the warnings were printed. */
  datatype Validation = Validation(outcome: Result<seq<string>, ConfigError>, warnings: seq<nat>)

  /** The validation loop from index `i` on. */
  function ValidateFrom(ids: seq<Option<string>>, i: nat): (v: Validation)
    requires i <= |ids|
    ensures v.outcome.Err? <==> exists j :: i <= j < |ids| && ids[j].None?
    ensures v.outcome.Err? ==>
      && v.outcome.error.MissingMinerId?
      && i <= v.outcome.error.device < |ids|
      && ids[v.outcome.error.device].None?
      && forall j :: i <= j < v.outcome.error.device ==> ids[j].Some?
    ensures v.outcome.Ok? ==>
      && |v.outcome.value| == |ids| - i
      && forall j :: i <= j < |ids| ==> ids[j] == Some(v.outcome.value[j - i])
    ensures forall d: nat :: d in v.warnings <==>
      (i <= d < |ids| && ids[d].Some? && !HasHexPrefix(ids[d].value)
       && forall j :: i <= j < d ==> ids[j].Some?)
    ensures forall a, b :: 0 <= a < b < |v.warnings| ==> v.warnings[a] < v.warnings[b]
    decreases |ids| - i
  {
    if i == |ids| then Validation(Ok([]), [])
    else match ids[i]
      case None => Validation(Err(MissingMinerId(i)), [])
      case Some(id) =>
        var rest := ValidateFrom(ids, i + 1);
        var outcome := match rest.outcome
          case Ok(vs) => Ok([id] + vs)
          case Err(e) => Err(e);
        assert forall k :: 0 <= k < |rest.warnings| ==> rest.warnings[k] in rest.warnings;
        Validation(outcome, if HasHexPrefix(id) then rest.warnings else [i] + rest.warnings)
  }

  /** `_load_and_validate_miner_ids` on the loaded list: raises exactly when
      some id is unset, naming the first one; otherwise returns every id
      unchanged, warning (in index order) about each one without `0x`. */
  function ValidateMinerIds(ids: seq<Option<string>>): (v: Validation)
    ensures v.outcome.Err? <==> exists j :: 0 <= j < |ids| && ids[j].None?
    ensures v.outcome.Err? ==> v.outcome.error.MissingMinerId? && FirstMissing(ids, v.outcome.error.device)
    ensures v.outcome.Ok? ==>
      && |v.outcome.value| == |ids|
      && forall j :: 0 <= j < |ids| ==> ids[j] == Some(v.outcome.value[j])
    ensures forall d: nat :: d in v.warnings <==> WarnedAbout(ids, d)
    ensures forall a, b :: 0 <= a < b < |v.warnings| ==> v.warnings[a] < v.warnings[b]
  {
    ValidateFrom(ids, 0)
  }

  /** Python's `xs[i]`: negative indices count from the end; `None` where
      Python raises `IndexError`. */
  function PyIndex<T>(xs: seq<T>, i: int): Option<T>
  {
    if 0 <= i < |xs| then Some(xs[i])
    else if -|xs| <= i < 0 then Some(xs[|xs| + i])
    else None
  }

  /** `_assign_miner_id`: with several devices, a device's own non-empty id
      wins; otherwise id 0 is used if non-empty; otherwise it raises. */
  function AssignMinerId(ids: seq<string>, numDevices: int, device: int): (r: Result<string, ConfigError>)
    ensures r.Ok? ==> r.value != "" && r.value in ids
    ensures numDevices > 1 && 0 <= device < |ids| && ids[device] != "" ==> r == Ok(ids[device])
    ensures (numDevices <= 1 || (0 <= device < |ids| && ids[device] == "")) && |ids| > 0 ==>
      r == (if ids[0] != "" then Ok(ids[0]) else Err(NoMinerId))
    ensures r == Err(IndexOutOfRange) <==>
      (numDevices > 1 && !(-|ids| <= device < |ids|)) || (|ids| == 0 && numDevices <= 1)
    ensures numDevices > 1 && -|ids| <= device < 0 ==>
      var own := ids[|ids| + device];
      r == (if own != "" then Ok(own) else if ids[0] != "" then Ok(ids[0]) else Err(NoMinerId))
  {
    var own := if numDevices > 1 then PyIndex(ids, device) else None;
    if numDevices > 1 && own.None? then Err(IndexOutOfRange)
    else if numDevices > 1 && own.value != "" then Ok(own.value)
    else if |ids| == 0 then Err(IndexOutOfRange)
    else if ids[0] != "" then Ok(ids[0])
    else Err(NoMinerId)
  }

  /** `MinerConfig.__init__`'s identity part: load, validate, assign. */
  datatype Identity = Identity(minerId: string, warnings: seq<nat>)

  /** Building the identity raises on the first unset variable below
      `numDevices`; when it succeeds, every variable is set, the id is a
      non-empty one of them, and the warnings name exactly the ids without `0x`. */
  function LoadIdentity(env: Env, numDevices: int, device: int): (r: Result<Identity, ConfigError>)
    ensures (r.Err? && r.error.MissingMinerId?) <==> exists i :: 0 <= i < numDevices && i !in env
    ensures r.Err? && r.error.MissingMinerId? ==>
      var d := r.error.device;
      d < numDevices && d !in env && forall j :: 0 <= j < d ==> j in env
    ensures r.Ok? ==>
      && (forall i :: 0 <= i < numDevices ==> i in env)
      && r.value.minerId != ""
      && (exists i :: 0 <= i < numDevices && env[i] == r.value.minerId)
      && forall d: nat :: d in r.value.warnings <==> d < numDevices && !HasHexPrefix(env[d])
  {
    var v := ValidateMinerIds(LoadMinerIds(env, numDevices));
    match v.outcome
    case Err(e) => Err(e)
    case Ok(ids) =>
      match AssignMinerId(ids, numDevices, device)
      case Err(e) => Err(e)
      case Ok(id) => Ok(Identity(id, v.warnings))
  }

  /** Every unset variable below `numDevices` is fatal, and the first one is
      the one reported; once all are set, a configured device never hits an
      IndexError: it gets its own id when there are several devices and that
      id is non-empty, otherwise id 0, and an empty id 0 is fatal. */
  lemma ConfiguredDeviceIdentity(env: Env, numDevices: int, device: int)
    requires 0 <= device < numDevices
    ensures var r := LoadIdentity(env, numDevices, device);
      && ((r.Err? && r.error.MissingMinerId?) <==> exists i :: 0 <= i < numDevices && i !in env)
      && (r.Err? && r.error.MissingMinerId? ==>
            var d := r.error.device;
            d < numDevices && d !in env && forall j :: 0 <= j < d ==> j in env)
      && ((forall i :: 0 <= i < numDevices ==> i in env) ==>
            var chosen := if numDevices > 1 && env[device] != "" then env[device] else env[0];
            && (r.Ok? <==> chosen != "")
            && (r.Ok? ==> r.value.minerId == chosen)
            && (r.Ok? ==> forall d: nat :: d in r.value.warnings <==> d < numDevices && !HasHexPrefix(env[d]))
            && (r.Err? ==> r.error == NoMinerId))
  {
    var ids := LoadMinerIds(env, numDevices);
    assert |ids| == numDevices;
    assert forall i :: 0 <= i < numDevices ==> (ids[i].None? <==> i !in env);
    var v := ValidateMinerIds(ids);
    if forall i :: 0 <= i < numDevices ==> i in env {
      var vs := v.outcome.value;
      assert forall i :: 0 <= i < numDevices ==> vs[i] == env[i];
    }
  }

  /** An empty device id on a multi-device host falls back to id 0, so two
      devices can end up sharing one id. */
  lemma EmptyDeviceIdFallsBack(env: Env, numDevices: int, device: int)
    requires 0 <= device < numDevices && numDevices > 1
    requires forall i :: 0 <= i < numDevices ==> i in env
    requires env[device] == "" && env[0] != ""
    ensures LoadIdentity(env, numDevices, device).Ok?
    ensures LoadIdentity(env, numDevices, device).value.minerId == env[0]
  {
  }
}

=== FILE: miner_request.dfy ===
/** One job request to the coordinator (`send_miner_request`): the
    heartbeat gate that decides whether hardware and version ride along,
    the operator warning pulled out of the reply text, and recognition of
    a job in the decoded reply. The HTTP call and reply decoding are
    external; their results are inputs. */
module MinerRequest {
  import opened Outcomes
  import opened PyText

  /** Seconds that must pass before hardware and version are sent again. */
  const HeartbeatPeriod: real := 60.0

  /** The text that introduces an operator warning in a reply. */
  const WarningMarker: string := "Warning:"

  /** A decoded JSON value, as the reply decoder hands it over. */
  datatype Json =
    | JNull
    | JBool(b: bool)
    | JNum(n: int)
    | JStr(s: string)
    | JList(items: seq<Json>)
    | JObject(fields: map<string, Json>)

  /** A decoded reply object. */
  type Body = map<string, Json>

  /** An HTTP reply as the worker sees it. */
  datatype HttpResponse = HttpResponse(status: int, text: string)

  /** `bool(response)`: `None` is false, and an HTTP response is false
      exactly when its status is a client or server error (4xx or 5xx). */
  predicate ResponseTruthy(resp: Option<HttpResponse>)
  {
    resp.Some? && !(400 <= resp.value.status < 600)
  }

  /** `bool(response_data)`: `None` and the empty object are false. */
  predicate BodyTruthy(data: Option<Body>)
  {
    data.Some? && |data.value| > 0
  }

  /** The `hardware` and `version` fields a heartbeat adds to a request. */
  datatype Heartbeat = Heartbeat(hardware: string, version: string)

  /** The request body: `miner_id`, `model_id`, `min_deadline`, and
      `hardware` plus `version` when a heartbeat rides along. */
  datatype Request = Request(minerId: string, modelId: Option<string>, minDeadline: int, heartbeat: Option<Heartbeat>)

  /** The request together with the new `last_heartbeat`. */
  datatype Gated = Gated(request: Request, lastHeartbeat: real)

  /** The heartbeat gate. `now` is the clock read of the staleness test and
      `stamp` the separate read stored as the new `last_heartbeat`. */
  function BuildRequest(minerId: string, modelId: Option<string>, minDeadline: int, version: string,
                        hardware: string, lastHeartbeat: real, now: real, stamp: real): (g: Gated)
    ensures g.request.minerId == minerId && g.request.modelId == modelId && g.request.minDeadline == minDeadline
    ensures g.request.heartbeat.Some? <==> now - lastHeartbeat >= HeartbeatPeriod
    ensures g.request.heartbeat.Some? ==> g.request.heartbeat.value == Heartbeat(hardware, version)
    ensures g.lastHeartbeat == (if g.request.heartbeat.Some? then stamp else lastHeartbeat)
  {
    var base := Request(minerId, modelId, minDeadline, None);
    if now - lastHeartbeat >= HeartbeatPeriod then
      Gated(base.(heartbeat := Some(Heartbeat(hardware, version))), stamp)
    else
      Gated(base, lastHeartbeat)
  }

  /** Once a heartbeat has been sent and stamped, the next request sends one
      exactly when a full period has passed since that stamp. */
  lemma HeartbeatOncePerPeriod(minerId: string, modelId: Option<string>, minDeadline: int, version: string,
                               hardware: string, last: real, now1: real, stamp1: real, now2: real, stamp2: real)
    requires BuildRequest(minerId, modelId, minDeadline, version, hardware, last, now1, stamp1).request.heartbeat.Some?
    ensures var g1 := BuildRequest(minerId, modelId, minDeadline, version, hardware, last, now1, stamp1);
      var g2 := BuildRequest(minerId, modelId, minDeadline, version, hardware, g1.lastHeartbeat, now2, stamp2);
      g2.request.heartbeat.Some? <==> now2 >= stamp1 + HeartbeatPeriod
  {
  }

  /** The operator warning in a reply: when the reply is truthy and its text
      contains the marker, the text between the first marker and the next
      one (or the end), with surrounding `"` removed. */
  function ExtractWarning(resp: Option<HttpResponse>): (w: Option<string>)
    ensures w.Some? <==> ResponseTruthy(resp) && Contains(resp.value.text, WarningMarker)
    ensures w.Some? ==> Unpadded(w.value, '"') && !Contains(w.value, WarningMarker)
    ensures w.Some? ==>
      var start := FindFrom(resp.value.text, WarningMarker, 0).value + |WarningMarker|;
      exists piece :: PieceAt(resp.value.text, WarningMarker, start, piece)
                      && Framed(piece, w.value, LeadRun(piece, '"', 0), '"')
  {
    if ResponseTruthy(resp) && FindFrom(resp.value.text, WarningMarker, 0).Some? then
      var piece := SecondPiece(resp.value.text, WarningMarker).value;
      var message := Strip(piece, '"');
      FramedLacks(piece, message, LeadRun(piece, '"', 0), '"', WarningMarker);
      Some(message)
    else None
  }

  /** Only the marker's first character is `W`, so two occurrences of the
      marker cannot overlap: none can start inside another. */
  lemma MarkerCannotOverlapItself(i: nat)
    requires 0 < i < |WarningMarker|
    ensures WarningMarker[i] != 'W'
  {
  }

  /** No marker starts before the end of a marker-free `before` that is
      followed by a marker: it would lie inside `before`, or its `W` would
      fall on a later character of the marker. */
  lemma NoMarkerBefore(before: string, after: string, j: nat)
    requires !Contains(before, WarningMarker)
    requires j < |before|
    ensures !OccursAt(before + WarningMarker + after, WarningMarker, j)
  {
    var text := before + WarningMarker + after;
    var m := |WarningMarker|;
    if OccursAt(text, WarningMarker, j) {
      if j + m <= |before| {
        assert text[j..j + m] == before[j..j + m];
        assert OccursAt(before, WarningMarker, j);
        assert false;
      } else {
        var k := |before| - j;
        assert text[|before|] == 'W';
        assert text[j..j + m][k] == WarningMarker[k];
        MarkerCannotOverlapItself(k);
        assert false;
      }
    }
  }

  /** No marker starts after the written one when `after` holds none. */
  lemma NoMarkerAfter(before: string, after: string, j: nat)
    requires !Contains(after, WarningMarker)
    requires |before| + |WarningMarker| <= j
    ensures !OccursAt(before + WarningMarker + after, WarningMarker, j)
  {
    var text := before + WarningMarker + after;
    var start := |before| + |WarningMarker|;
    if OccursAt(text, WarningMarker, j) {
      assert text[j..j + |WarningMarker|] == after[j - start..j - start + |WarningMarker|];
      assert OccursAt(after, WarningMarker, j - start);
      assert false;
    }
  }

  /** In a text that starts with marker-free `before` followed by the
      marker, the first marker is the one right after `before`. */
  lemma FirstMarkerAfter(before: string, tail: string)
    requires !Contains(before, WarningMarker)
    ensures FindFrom(before + WarningMarker + tail, WarningMarker, 0) == Some(|before|)
  {
    var text := before + WarningMarker + tail;
    assert OccursAt(text, WarningMarker, |before|) by {
      assert text[|before|..|before| + |WarningMarker|] == WarningMarker;
    }
    forall j: nat | j < |before|
      ensures !OccursAt(text, WarningMarker, j)
    {
      NoMarkerBefore(before, tail, j);
    }
  }

  /** `text.split("Warning:")[1]` of a text with exactly one marker is what follows it. */
  lemma {:induction false} PieceAfterOnlyMarker(before: string, after: string)
    requires !Contains(before, WarningMarker)
    requires !Contains(after, WarningMarker)
    ensures SecondPiece(before + WarningMarker + after, WarningMarker) == Some(after)
  {
    var text := before + WarningMarker + after;
    var start := |before| + |WarningMarker|;
    FirstMarkerAfter(before, after);
    forall j: nat | start <= j
      ensures !OccursAt(text, WarningMarker, j)
    {
      NoMarkerAfter(before, after, j);
    }
    assert FindFrom(text, WarningMarker, start).None?;
    SecondPieceRunsToEnd(text, WarningMarker, |before|);
    assert text[start..] == after;
  }

  /** An occurrence at or after `a` is an occurrence in the suffix `s[a..]`. */
  lemma OccursInSuffix(s: string, pat: string, a: nat, j: nat)
    requires a <= j && a <= |s| && OccursAt(s, pat, j)
    ensures OccursAt(s[a..], pat, j - a)
  {
    assert s[a..][j - a..j - a + |pat|] == s[j..j + |pat|];
  }

  /** `text.split("Warning:")[1]` of a text whose first two markers enclose
      a marker-free `mid` is `mid`, whatever follows the second marker. */
  lemma {:induction false} PieceBeforeNextMarker(before: string, mid: string, rest: string)
    requires !Contains(before, WarningMarker)
    requires !Contains(mid, WarningMarker)
    ensures SecondPiece(before + WarningMarker + mid + WarningMarker + rest, WarningMarker) == Some(mid)
  {
    var m := |WarningMarker|;
    var tail := mid + WarningMarker + rest;
    var text := before + WarningMarker + mid + WarningMarker + rest;
    assert text == before + WarningMarker + tail;
    var start := |before| + m;
    var next := start + |mid|;
    assert OccursAt(text, WarningMarker, |before|) by {
      assert text[|before|..start] == WarningMarker;
    }
    forall j: nat | j < |before|
      ensures !OccursAt(text, WarningMarker, j)
    {
      NoMarkerBefore(before, tail, j);
    }
    assert FindFrom(text, WarningMarker, 0) == Some(|before|);
    assert text[start..] == tail;
    assert OccursAt(text, WarningMarker, next) by {
      assert text[next..next + m] == WarningMarker;
    }
    forall j: nat | start <= j < next
      ensures !OccursAt(text, WarningMarker, j)
    {
      if OccursAt(text, WarningMarker, j) {
        OccursInSuffix(text, WarningMarker, start, j);
        NoMarkerBefore(mid, rest, j - start);
      }
    }
    assert FindFrom(text, WarningMarker, start) == Some(next);
    assert text[start..next] == mid;
  }

  /** A second marker ends the warning: the message between the first two
      markers, bare or wrapped in any number of `"`, is the warning shown. */
  lemma {:induction false} WarningStopsAtNextMarker(status: int, before: string, p: string, message: string,
                                                    q: string, rest: string)
    requires !(400 <= status < 600)
    requires !Contains(before, WarningMarker)
    requires !Contains(p + message + q, WarningMarker)
    requires AllAre(p, '"') && AllAre(q, '"') && Unpadded(message, '"')
    ensures ExtractWarning(Some(HttpResponse(status, before + WarningMarker + p + message + q + WarningMarker + rest)))
            == Some(message)
  {
    var mid := p + message + q;
    assert before + WarningMarker + p + message + q + WarningMarker + rest
        == before + WarningMarker + mid + WarningMarker + rest;
    PieceBeforeNextMarker(before, mid, rest);
    StripUnpads(p, message, q, '"');
  }

  /** Where the only marker in a reply is the one written between `before`
      and the message, the warning shown is the message itself, whether it
      is written bare or wrapped in any number of `"` on either side. */
  lemma {:induction false} WarningRoundTrip(status: int, before: string, p: string, message: string, q: string)
    requires !(400 <= status < 600)
    requires !Contains(before, WarningMarker)
    requires !Contains(p + message + q, WarningMarker)
    requires AllAre(p, '"') && AllAre(q, '"') && Unpadded(message, '"')
    ensures ExtractWarning(Some(HttpResponse(status, before + WarningMarker + p + message + q))) == Some(message)
  {
    var after := p + message + q;
    assert before + WarningMarker + p + message + q == before + WarningMarker + after;
    PieceAfterOnlyMarker(before, after);
    StripUnpads(p, message, q, '"');
  }

  /** The `job_id` and `model_id` a reply announced. */
  datatype Announcement = Announcement(jobId: Json, modelId: Json)

  /** Job recognition: a reply is a job when it is a non-empty object that
      has both `job_id` and `model_id`. */
  function RecognizeJob(data: Option<Body>): (a: Option<Announcement>)
    ensures a.Some? <==> BodyTruthy(data) && "job_id" in data.value && "model_id" in data.value
    ensures a.Some? ==> a.value.jobId == data.value["job_id"] && a.value.modelId == data.value["model_id"]
  {
    if BodyTruthy(data) && "job_id" in data.value && "model_id" in data.value then
      Some(Announcement(data.value["job_id"], data.value["model_id"]))
    else None
  }

  /** What `post_request` did, and what `log_response` decoded from it. */
  datatype PostOutcome = PostRaised | Posted(response: Option<HttpResponse>, data: Option<Body>)

  /** The clock reads of one request: the staleness test, the new heartbeat
      stamp, and the two reads around the HTTP call. */
  datatype SendClock = SendClock(heartbeatNow: real, heartbeatStamp: real, sendStart: real, sendEnd: real)

  /** What a request returned to its caller: the decoded reply, the
      latency, the warning shown and the job announced, if any. */
  datatype Reply = Reply(data: Option<Body>, latency: real, warning: Option<string>, announced: Option<Announcement>)

  /** How `send_miner_request` ended: `post_request` raised, or a reply came back. */
  datatype SendResult = SendRaised | Sent(reply: Reply)

  /** One exchange: the request sent, the new `last_heartbeat`, and the reply. */
  datatype Exchange = Exchange(request: Request, lastHeartbeat: real, result: SendResult)

  /** `send_miner_request`. The heartbeat update happens before the HTTP
      call, so it stands even when that call raises. */
  function SendMinerRequest(minerId: string, modelId: Option<string>, minDeadline: int, version: string,
                            hardware: string, lastHeartbeat: real, clock: SendClock, post: PostOutcome): (x: Exchange)
    ensures x.request.minerId == minerId && x.request.modelId == modelId && x.request.minDeadline == minDeadline
    ensures x.request.heartbeat.Some? <==> clock.heartbeatNow - lastHeartbeat >= HeartbeatPeriod
    ensures x.lastHeartbeat == (if x.request.heartbeat.Some? then clock.heartbeatStamp else lastHeartbeat)
    ensures x.result.SendRaised? <==> post.PostRaised?
    ensures x.result.Sent? ==>
      && x.result.reply.data == post.data
      && x.result.reply.latency == clock.sendEnd - clock.sendStart
      && x.result.reply.warning == ExtractWarning(post.response)
      && x.result.reply.announced == RecognizeJob(post.data)
  {
    var g := BuildRequest(minerId, modelId, minDeadline, version, hardware, lastHeartbeat, clock.heartbeatNow, clock.heartbeatStamp);
    match post
    case PostRaised => Exchange(g.request, g.lastHeartbeat, SendRaised)
    case Posted(response, data) =>
      var reply := Reply(data, clock.sendEnd - clock.sendStart, ExtractWarning(response), RecognizeJob(data));
      Exchange(g.request, g.lastHeartbeat, Sent(reply))
  }
}

=== FILE: model_reload.dfy ===
/** The throttled model-reload check (`check_and_reload_model`): at most
    once per reload interval the worker asks the coordinator which model
    it should run, and asks for a swap when that model is stored locally
    but not loaded. The HTTP call, reply decoding and the swap itself are
    external; their results are inputs. */
module ModelReload {
  import opened Outcomes

  /** `response.json().get('model_id')`; `Malformed` is a body whose
      decoding raises. */
  datatype SignalBody = Malformed | Parsed(modelId: Option<string>)

  /** What `post_request` to the signal endpoint did. */
  datatype SignalReply = SignalRaised | NoResponse | Responded(status: int, body: SignalBody)

  /** How the check ended: returning the new `last_signal_time`, or raising. */
  datatype CheckOutcome = Returned(lastSignal: real) | Raised

  /** Whether the signal endpoint was contacted, which model a swap was
      requested for, and how the check ended. */
  datatype CheckResult = CheckResult(contacted: bool, swap: Option<string>, outcome: CheckOutcome)

  /** The model a swap is wanted for: signalled, stored locally, not loaded. */
  predicate SwapWanted(signalled: Option<string>, local: set<string>, loaded: seq<string>)
  {
    signalled.Some? && signalled.value in local && signalled.value !in loaded
  }

  /** The return expression of `check_and_reload_model`, applied to the
      possibly reassigned `last_signal_time`. */
  function FinalTimestamp(interval: real, last: real, now: real): real
  {
    if now - last < interval then last else now
  }

  /** `check_and_reload_model`. `now` is its single clock read; a swap that
      goes through reassigns `last_signal_time` before the return
      expression is evaluated. */
  function CheckAndReloadModel(interval: real, lastSignal: real, now: real, reply: SignalReply,
                               local: set<string>, loaded: seq<string>, reloadRaises: bool): (c: CheckResult)
    ensures c.contacted <==> now - lastSignal >= interval
    ensures c.swap.Some? <==>
      c.contacted && reply.Responded? && reply.status == 200 && reply.body.Parsed?
      && SwapWanted(reply.body.modelId, local, loaded)
    ensures c.swap.Some? ==> c.swap.value in local && c.swap.value !in loaded && reply.body.modelId == c.swap
    ensures c.outcome.Raised? <==>
      c.contacted && (reply.SignalRaised? || (reply.Responded? && reply.status == 200 && reply.body.Malformed?)
                      || (c.swap.Some? && reloadRaises))
    ensures c.outcome.Returned? ==> c.outcome.lastSignal == (if c.contacted then now else lastSignal)
  {
    var untouched := FinalTimestamp(interval, lastSignal, now);
    if now - lastSignal >= interval then
      match reply
      case SignalRaised => CheckResult(true, None, Raised)
      case NoResponse => CheckResult(true, None, Returned(untouched))
      case Responded(status, body) =>
        if status != 200 then CheckResult(true, None, Returned(untouched))
        else match body
          case Malformed => CheckResult(true, None, Raised)
          case Parsed(signalled) =>
            if SwapWanted(signalled, local, loaded) then
              if reloadRaises then CheckResult(true, signalled, Raised)
              else CheckResult(true, signalled, Returned(FinalTimestamp(interval, now, now)))
            else CheckResult(true, None, Returned(untouched))
    else CheckResult(false, None, Returned(untouched))
  }

  /** The returned timestamp depends on the clock alone: whatever the
      coordinator answers and whatever is stored or loaded, two checks at
      the same time from the same state that both return, return the same. */
  lemma TimestampIgnoresReply(interval: real, lastSignal: real, now: real,
                              reply1: SignalReply, local1: set<string>, loaded1: seq<string>, raises1: bool,
                              reply2: SignalReply, local2: set<string>, loaded2: seq<string>, raises2: bool)
    requires CheckAndReloadModel(interval, lastSignal, now, reply1, local1, loaded1, raises1).outcome.Returned?
    requires CheckAndReloadModel(interval, lastSignal, now, reply2, local2, loaded2, raises2).outcome.Returned?
    ensures CheckAndReloadModel(interval, lastSignal, now, reply1, local1, loaded1, raises1).outcome
         == CheckAndReloadModel(interval, lastSignal, now, reply2, local2, loaded2, raises2).outcome
  {
  }

  /** A model that is already loaded, or not stored locally, never causes a
      swap request, whatever the coordinator signals. */
  lemma NoSwapForLoadedOrForeign(interval: real, lastSignal: real, now: real, m: string,
                                 local: set<string>, loaded: seq<string>, reloadRaises: bool)
    requires m in loaded || m !in local
    ensures CheckAndReloadModel(interval, lastSignal, now, Responded(200, Parsed(Some(m))), local, loaded, reloadRaises).swap.None?
  {
  }
}

=== FILE: outcomes.dfy ===
/** Values that stand in for Python's `None` and for calls that raise.
    The worker's Python code signals absence with `None` and failure with
    exceptions; the model makes both explicit data. */
module Outcomes {

  /** `None` is Python's `None`; `Some(v)` is a present value. */
  datatype Option<T> = None | Some(value: T)

  /** The result of a call that either returns `value` or raises `error`. */
  datatype Result<T, E> = Ok(value: T) | Err(error: E)
}

=== FILE: pytext.dfy ===
/** The few Python `str` operations the worker relies on: `pat in s`,
    `s.split(sep)[1]` and `s.strip(c)`, each specified by what it finds or
    removes rather than by how it scans. */
module PyText {
  import opened Outcomes

  /** `pat` occurs in `s` starting at index `i`. */
  predicate OccursAt(s: string, pat: string, i: nat)
  {
    i + |pat| <= |s| && s[i..i + |pat|] == pat
  }

  /** Python's `pat in s`. */
  predicate Contains(s: string, pat: string)
  {
    exists i: nat | i + |pat| <= |s| :: OccursAt(s, pat, i)
  }

  /** The first occurrence of `pat` in `s` at or after `from`. */
  function FindFrom(s: string, pat: string, from: nat): (r: Option<nat>)
    ensures r.Some? ==> from <= r.value && OccursAt(s, pat, r.value)
    ensures r.Some? ==> forall j: nat :: from <= j < r.value ==> !OccursAt(s, pat, j)
    ensures r.None? ==> forall j: nat :: from <= j ==> !OccursAt(s, pat, j)
    decreases |s| - from
  {
    if from + |pat| > |s| then None
    else if s[from..from + |pat|] == pat then Some(from)
    else FindFrom(s, pat, from + 1)
  }

  /** An occurrence of `pat` inside the slice `s[a..b]` is an occurrence in `s`. */
  lemma OccursInSlice(s: string, pat: string, a: nat, b: nat, p: nat)
    requires a <= b <= |s|
    requires OccursAt(s[a..b], pat, p)
    ensures OccursAt(s, pat, a + p) && a + p + |pat| <= b
  {
    var t := s[a..b];
    assert p + |pat| <= |t|;
    assert forall k :: 0 <= k < |pat| ==> s[a + p + k] == t[p + k] == pat[k];
  }

  /** A slice of `s` in which no occurrence of `pat` starts cannot contain `pat`. */
  lemma NoStartNoContains(s: string, pat: string, a: nat, b: nat)
    requires |pat| > 0 && a <= b <= |s|
    requires forall j: nat :: a <= j < b ==> !OccursAt(s, pat, j)
    ensures !Contains(s[a..b], pat)
  {
    forall p: nat | OccursAt(s[a..b], pat, p)
      ensures false
    {
      OccursInSlice(s, pat, a, b, p);
    }
  }

  /** `piece` is the piece of `s.split(sep)` that starts at `start`: it
      runs from `start` up to the next occurrence of `sep` (no occurrence
      starts inside it) or to the end of `s`, so it contains no `sep`. */
  predicate PieceAt(s: string, sep: string, start: nat, piece: string)
  {
    && start + |piece| <= |s|
    && piece == s[start..start + |piece|]
    && (start + |piece| == |s| || OccursAt(s, sep, start + |piece|))
    && (forall j: nat :: start <= j < start + |piece| ==> !OccursAt(s, sep, j))
    && !Contains(piece, sep)
  }

  /** The piece of `s.split(sep)` that starts at `start`. */
  function PieceFrom(s: string, sep: string, start: nat): (r: string)
    requires |sep| > 0 && start <= |s|
    ensures PieceAt(s, sep, start, r)
  {
    match FindFrom(s, sep, start)
    case None =>
      NoStartNoContains(s, sep, start, |s|);
      s[start..|s|]
    case Some(k) =>
      NoStartNoContains(s, sep, start, k);
      s[start..k]
  }

  /** With no `sep` from `start` on, the piece runs to the end of `s`. */
  lemma {:induction false} PieceFromRunsToEnd(s: string, sep: string, start: nat)
    requires |sep| > 0 && start <= |s| && FindFrom(s, sep, start).None?
    ensures PieceFrom(s, sep, start) == s[start..]
  {
  }

  /** The search from the start finds something exactly when `pat in s`. */
  lemma FindFromStartDecides(s: string, pat: string)
    ensures FindFrom(s, pat, 0).Some? <==> Contains(s, pat)
  {
    if FindFrom(s, pat, 0).Some? {
      var i := FindFrom(s, pat, 0).value;
      assert OccursAt(s, pat, i);
    }
  }

  /** Python's `s.split(sep)[1]`: the text after the first `sep`, up to the
      next `sep` or the end of `s`. `None` where Python would raise
      `IndexError` because `sep` does not occur. */
  function SecondPiece(s: string, sep: string): (r: Option<string>)
    requires |sep| > 0
    ensures r.Some? <==> Contains(s, sep)
    ensures r.Some? ==> PieceAt(s, sep, FindFrom(s, sep, 0).value + |sep|, r.value)
  {
    FindFromStartDecides(s, sep);
    match FindFrom(s, sep, 0)
    case None => None
    case Some(i) =>
      var piece := PieceFrom(s, sep, i + |sep|);
      Some(piece)
  }

  /** Once `sep` is found at `i`, `split(sep)[1]` is the piece that follows it. */
  lemma {:induction false} SecondPieceAfterFirst(s: string, sep: string, i: nat)
    requires |sep| > 0 && FindFrom(s, sep, 0) == Some(i)
    ensures i + |sep| <= |s| && SecondPiece(s, sep) == Some(PieceFrom(s, sep, i + |sep|))
  {
  }

  /** Equal pieces make equal `Some` results. */
  lemma SomePieceEqual(r: Option<string>, piece: string, same: string)
    requires r == Some(piece) && piece == same
    ensures r == Some(same)
  {
  }

  /** `split(sep)[1]` when no `sep` follows the first one. */
  lemma {:induction false} SecondPieceRunsToEnd(s: string, sep: string, i: nat)
    requires |sep| > 0
    requires FindFrom(s, sep, 0) == Some(i) && FindFrom(s, sep, i + |sep|).None?
    ensures i + |sep| <= |s|
    ensures SecondPiece(s, sep) == Some(s[i + |sep|..])
  {
    SecondPieceAfterFirst(s, sep, i);
    PieceFromRunsToEnd(s, sep, i + |sep|);
    SomePieceEqual(SecondPiece(s, sep), PieceFrom(s, sep, i + |sep|), s[i + |sep|..]);
  }

  /** Every character of `s` is `c`. */
  predicate AllAre(s: string, c: char)
  {
    forall i :: 0 <= i < |s| ==> s[i] == c
  }

  /** `s` neither begins nor ends with `c`. */
  predicate Unpadded(s: string, c: char)
  {
    |s| == 0 || (s[0] != c && s[|s| - 1] != c)
  }

  /** `r` occurs in `s` at offset `a`, and every character of `s` outside
      that occurrence is `c`. */
  predicate Framed(s: string, r: string, a: nat, c: char)
  {
    && a + |r| <= |s|
    && r == s[a..a + |r|]
    && (forall k :: 0 <= k < a ==> s[k] == c)
    && (forall k :: a + |r| <= k < |s| ==> s[k] == c)
  }

  /** The first index at or after `i` that does not hold `c` (or `|s|`):
      where `lstrip` stops. */
  function LeadRun(s: string, c: char, i: nat): (n: nat)
    requires i <= |s|
    ensures i <= n <= |s| && (n == |s| || s[n] != c)
    ensures forall k :: i <= k < n ==> s[k] == c
    decreases |s| - i
  {
    if i < |s| && s[i] == c then LeadRun(s, c, i + 1) else i
  }

  /** The end of `s[..j]` once the trailing run of `c` is cut off: where
      `rstrip` stops. */
  function TrailRun(s: string, c: char, j: nat): (n: nat)
    requires j <= |s|
    ensures n <= j && (n == 0 || s[n - 1] != c)
    ensures forall k :: n <= k < j ==> s[k] == c
  {
    if j > 0 && s[j - 1] == c then TrailRun(s, c, j - 1) else j
  }

  /** What is framed in a text that does not contain `pat` does not contain it either. */
  lemma FramedLacks(s: string, r: string, a: nat, c: char, pat: string)
    requires Framed(s, r, a, c) && !Contains(s, pat)
    ensures !Contains(r, pat)
  {
    forall p: nat | OccursAt(r, pat, p)
      ensures false
    {
      OccursInSlice(s, pat, a, a + |r|, p);
    }
  }

  /** Python's `s.strip(c)`: `s` with every leading and trailing `c`
      removed. The result is the slice of `s` that starts where `lstrip`
      stops; everything outside it is `c`, and it neither begins nor ends
      with `c`. */
  function Strip(s: string, c: char): (r: string)
    ensures Unpadded(r, c)
    ensures Framed(s, r, LeadRun(s, c, 0), c)
  {
    var a := LeadRun(s, c, 0);
    if a == |s| then "" else s[a..TrailRun(s, c, |s|)]
  }

  /** Strip removes exactly the padding: whatever `c`s surround an unpadded
      text, stripping gives that text back. */
  lemma StripUnpads(p: string, m: string, q: string, c: char)
    requires AllAre(p, c) && AllAre(q, c) && Unpadded(m, c)
    ensures Strip(p + m + q, c) == m
  {
    var s := p + m + q;
    assert forall k :: 0 <= k < |p| ==> s[k] == p[k];
    assert forall k :: |p| + |m| <= k < |s| ==> s[k] == q[k - |p| - |m|];
    if |m| == 0 {
      assert LeadRun(s, c, 0) == |s|;
    } else {
      assert s[|p|] == m[0] && s[|p| + |m| - 1] == m[|m| - 1];
      assert LeadRun(s, c, 0) == |p|;
      assert TrailRun(s, c, |s|) == |p| + |m|;
      assert s[|p|..|p| + |m|] == m;
    }
  }
}

=== FILE: worker.dfy ===
/** The device worker loop (`process_jobs` and the body of `main`'s loop)
    as a step function over explicit state. Everything the outside world
    contributes to one iteration (clock reads, coordinator replies, the
    local and loaded model lists, failures of external calls) is an input,
    a `World`. */
module Worker {
  import opened Outcomes
  import opened MinerRequest
  import opened ModelReload

  /** The configuration one worker reads at startup. */
  datatype Config = Config(
    minerId: string,
    version: string,
    reloadInterval: real,
    sleepDuration: real,
    minDeadline: int,
    excludeSdxl: bool)

  /** The worker's mutable state: `last_signal_time` and `config.last_heartbeat`. */
  datatype State = State(lastSignal: real, lastHeartbeat: real)

  /** Every clock read of one iteration, in program order. */
  datatype Clock = Clock(signalNow: real, heartbeatNow: real, heartbeatStamp: real,
                         sendStart: real, sendEnd: real, jobStart: real)

  /** What the outside world supplies to one iteration. The local model ids
      and the loaded models are read twice, once by the reload check and
      once by `process_jobs`; a swap in between may change them. */
  datatype World = World(
    clock: Clock,
    signal: SignalReply,
    localAtSignal: set<string>,
    loadedAtSignal: seq<string>,
    reloadRaises: bool,
    localAtJobs: set<string>,
    loadedAtJobs: seq<string>,
    hardware: string,
    post: PostOutcome,
    submitRaises: bool)

  /** The body posted to `/miner_signal`: the miner id and `exclude_sdxl`. */
  datatype SignalRequest = SignalRequest(minerId: string, excludeSdxl: bool)

  /** The arguments of `submit_job_result`. */
  datatype Submission = Submission(minerId: string, job: Body, credentials: Json, startTime: real, latency: real)

  /** What an iteration does that the outside world can see, in order. */
  datatype Event =
    | Signalled(signalRequest: SignalRequest)
    | SwapRequested(modelId: string)
    | Requested(request: Request)
    | Warned(message: string)
    | Announced(announcement: Announcement)
    | Submitted(submission: Submission)

  /** `next(iter(loaded_models), None)`. */
  function First(xs: seq<string>): Option<string>
  {
    if |xs| == 0 then None else Some(xs[0])
  }

  /** The `print` of the operator warning, when the reply had one. */
  function WarningEvents(w: Option<string>): seq<Event>
  {
    if w.Some? then [Warned(w.value)] else []
  }

  /** The `print` announcing a recognised job, when the reply was one. */
  function AnnouncementEvents(a: Option<Announcement>): seq<Event>
  {
    if a.Some? then [Announced(a.value)] else []
  }

  /** How `process_jobs` ended: `sys.exit(0)`, `False`, `True`, or raising. */
  datatype JobsOutcome = Exit | NoJob | Executed | JobsRaised

  /** How `process_jobs` ended, the request it made (if any), the new
      `last_heartbeat` and the events it produced. */
  datatype JobsResult = JobsResult(outcome: JobsOutcome, request: Option<Request>, lastHeartbeat: real, events: seq<Event>)

  /** The keys `process_jobs` reads from a job. */
  predicate Submittable(job: Body)
  {
    "job_id" in job && "model_id" in job && "temp_credentials" in job
  }

  /** The part of `process_jobs` that follows the request: the events the
      reply shows and how the call ends. */
  datatype Handled = Handled(outcome: JobsOutcome, events: seq<Event>)

  /** `process_jobs` after `send_miner_request` returned: a falsy reply is
      "no job"; a truthy one is submitted, which raises when a key the
      submission reads is missing or the submission itself fails. */
  function HandleReply(cfg: Config, reply: Reply, jobStart: real, submitRaises: bool): (h: Handled)
    ensures h.outcome.NoJob? <==> !BodyTruthy(reply.data)
    ensures h.outcome.Executed? <==> BodyTruthy(reply.data) && Submittable(reply.data.value) && !submitRaises
    ensures !h.outcome.Exit?
    ensures reply.announced.Some? ==> Announced(reply.announced.value) in h.events
    ensures reply.warning.Some? ==> |h.events| > 0 && h.events[0] == Warned(reply.warning.value)
    ensures reply.warning.None? ==> forall e :: e in h.events ==> !e.Warned?
    ensures reply.announced.None? ==> forall e :: e in h.events ==> !e.Announced?
    ensures forall k :: 0 <= k < |h.events| ==>
      !h.events[k].Requested? && !h.events[k].Signalled? && !h.events[k].SwapRequested?
    ensures h.outcome.Executed? ==>
      |h.events| > 0 &&
      h.events[|h.events| - 1] == Submitted(Submission(cfg.minerId, reply.data.value, reply.data.value["temp_credentials"],
                                                       jobStart, reply.latency))
  {
    var shown := WarningEvents(reply.warning) + AnnouncementEvents(reply.announced);
    assert forall k :: 0 <= k < |shown| ==> shown[k].Warned? || shown[k].Announced?;
    assert reply.announced.Some? ==> Announced(reply.announced.value) in shown;
    assert reply.warning.Some? ==> shown[0] == Warned(reply.warning.value);
    if !BodyTruthy(reply.data) then Handled(NoJob, shown)
    else
      var job := reply.data.value;
      if !Submittable(job) then Handled(JobsRaised, shown)
      else
        var submitted := shown + [Submitted(Submission(cfg.minerId, job, job["temp_credentials"], jobStart, reply.latency))];
        Handled(if submitRaises then JobsRaised else Executed, submitted)
  }

  /** `process_jobs`: exits when no model is stored locally; otherwise
      requests work for the first loaded model and submits the job, if any.
      The request is always the first event and the only request. */
  function ProcessJobs(cfg: Config, lastHeartbeat: real, w: World): (j: JobsResult)
    ensures j.outcome.Exit? <==> |w.localAtJobs| == 0
    ensures j.outcome.Exit? ==> j.events == [] && j.request.None? && j.lastHeartbeat == lastHeartbeat
    ensures !j.outcome.Exit? ==>
      && j.request.Some?
      && j.request.value.modelId == First(w.loadedAtJobs)
      && j.request.value.minerId == cfg.minerId
      && j.request.value.minDeadline == cfg.minDeadline
      && |j.events| > 0 && j.events[0] == Requested(j.request.value)
    ensures j.request.Some? ==>
      (j.request.value.heartbeat.Some? <==> w.clock.heartbeatNow - lastHeartbeat >= HeartbeatPeriod)
    ensures j.lastHeartbeat ==
      (if j.request.Some? && j.request.value.heartbeat.Some? then w.clock.heartbeatStamp else lastHeartbeat)
    ensures j.outcome.NoJob? <==> w.post.Posted? && |w.localAtJobs| > 0 && !BodyTruthy(w.post.data)
    ensures j.outcome.Executed? <==>
      && |w.localAtJobs| > 0 && w.post.Posted? && BodyTruthy(w.post.data)
      && Submittable(w.post.data.value) && !w.submitRaises
    ensures forall k :: 0 <= k < |j.events| ==> !j.events[k].Signalled? && !j.events[k].SwapRequested?
    ensures forall k :: 0 <= k < |j.events| && j.events[k].Requested? ==> k == 0
  {
    var current := First(w.loadedAtJobs);
    if |w.localAtJobs| == 0 then JobsResult(Exit, None, lastHeartbeat, [])
    else
      var clock := SendClock(w.clock.heartbeatNow, w.clock.heartbeatStamp, w.clock.sendStart, w.clock.sendEnd);
      var x := SendMinerRequest(cfg.minerId, current, cfg.minDeadline, cfg.version, w.hardware, lastHeartbeat, clock, w.post);
      match x.result
      case SendRaised => JobsResult(JobsRaised, Some(x.request), x.lastHeartbeat, [Requested(x.request)])
      case Sent(reply) =>
        var h := HandleReply(cfg, reply, w.clock.jobStart, w.submitRaises);
        JobsResult(h.outcome, Some(x.request), x.lastHeartbeat, [Requested(x.request)] + h.events)
  }

  /** No signal call or swap request comes after the job request. */
  predicate ReloadBeforeRequest(events: seq<Event>)
  {
    forall i, j :: 0 <= i < j < |events| && events[i].Requested? ==> !events[j].Signalled? && !events[j].SwapRequested?
  }

  /** One pass of `main`'s loop: the state before and after, what it did,
      whether the process exited, whether a job executed, and the sleep
      that follows. */
  datatype Iteration = Iteration(
    before: State,
    after: State,
    events: seq<Event>,
    contacted: bool,
    checkRaised: bool,
    heartbeatSent: bool,
    exited: bool,
    executed: bool,
    sleep: Option<real>)

  /** The events of the reload check: the signal call, then the swap request. */
  function CheckEvents(cfg: Config, c: CheckResult): seq<Event>
  {
    (if c.contacted then [Signalled(SignalRequest(cfg.minerId, cfg.excludeSdxl))] else [])
    + (if c.swap.Some? then [SwapRequested(c.swap.value)] else [])
  }

  /** One iteration of the worker loop. An exception anywhere counts as
      "not executed"; `sys.exit` is not an `Exception` and ends the worker. */
  function Step(cfg: Config, st: State, w: World): (it: Iteration)
    ensures it.before == st
    ensures it.contacted <==> w.clock.signalNow - st.lastSignal >= cfg.reloadInterval
    ensures it.checkRaised <==>
      CheckAndReloadModel(cfg.reloadInterval, st.lastSignal, w.clock.signalNow, w.signal,
                          w.localAtSignal, w.loadedAtSignal, w.reloadRaises).outcome.Raised?
    ensures it.checkRaised ==> it.contacted && it.after == st
    ensures it.checkRaised ==> forall e :: e in it.events ==> !e.Requested?
    ensures it.contacted <==> |it.events| > 0 && it.events[0] == Signalled(SignalRequest(cfg.minerId, cfg.excludeSdxl))
    ensures forall m :: SwapRequested(m) in it.events <==>
      CheckAndReloadModel(cfg.reloadInterval, st.lastSignal, w.clock.signalNow, w.signal,
                          w.localAtSignal, w.loadedAtSignal, w.reloadRaises).swap == Some(m)
    ensures !it.checkRaised ==> it.after.lastSignal == (if it.contacted then w.clock.signalNow else st.lastSignal)
    ensures it.heartbeatSent <==>
      !it.checkRaised && |w.localAtJobs| > 0 && w.clock.heartbeatNow - st.lastHeartbeat >= HeartbeatPeriod
    ensures it.after.lastHeartbeat == (if it.heartbeatSent then w.clock.heartbeatStamp else st.lastHeartbeat)
    ensures it.exited <==> !it.checkRaised && |w.localAtJobs| == 0
    ensures it.exited ==> forall e :: e in it.events ==> !e.Requested?
    ensures it.executed <==> !it.checkRaised && ProcessJobs(cfg, st.lastHeartbeat, w).outcome.Executed?
    ensures it.sleep.Some? <==> !it.executed && !it.exited
    ensures it.sleep.Some? ==> it.sleep.value == cfg.sleepDuration
  {
    var c := CheckAndReloadModel(cfg.reloadInterval, st.lastSignal, w.clock.signalNow, w.signal,
                                 w.localAtSignal, w.loadedAtSignal, w.reloadRaises);
    var checkEvents := CheckEvents(cfg, c);
    match c.outcome
    case Raised =>
      Iteration(st, st, checkEvents, c.contacted, true, false, false, false, Some(cfg.sleepDuration))
    case Returned(lastSignal) =>
      var j := ProcessJobs(cfg, st.lastHeartbeat, w);
      var executed := j.outcome.Executed?;
      var exited := j.outcome.Exit?;
      var events := checkEvents + j.events;
      Iteration(st, State(lastSignal, j.lastHeartbeat), events, c.contacted, false,
                j.request.Some? && j.request.value.heartbeat.Some?, exited, executed,
                if executed || exited then None else Some(cfg.sleepDuration))
  }

  /** The state `main` enters its loop with: `last_signal_time` is the
      startup clock read; `last_heartbeat` comes from the base configuration. */
  function Initial(startTime: real, lastHeartbeat: real): State
  {
    State(startTime, lastHeartbeat)
  }

  /** Iterations of the loop, one per world, until the worker exits. */
  function Run(cfg: Config, st: State, ws: seq<World>): (trace: seq<Iteration>)
    ensures |trace| <= |ws|
    ensures |ws| > 0 ==> |trace| > 0 && trace[0].before == st
    ensures forall k :: 0 <= k < |trace| - 1 ==> trace[k + 1].before == trace[k].after && !trace[k].exited
    ensures |trace| < |ws| ==> trace[|trace| - 1].exited
    decreases |ws|
  {
    if |ws| == 0 then []
    else
      var it := Step(cfg, st, ws[0]);
      if it.exited then [it]
      else [it] + Run(cfg, it.after, ws[1..])
  }

  /** Iteration `k` of a run is the step taken from the state it starts in
      with the `k`-th world. */
  lemma {:induction false} RunIsSteps(cfg: Config, st: State, ws: seq<World>, k: nat)
    requires k < |Run(cfg, st, ws)|
    ensures Run(cfg, st, ws)[k] == Step(cfg, Run(cfg, st, ws)[k].before, ws[k])
    decreases k
  {
    var it := Step(cfg, st, ws[0]);
    if k > 0 {
      RunIsSteps(cfg, it.after, ws[1..], k - 1);
      assert ws[1..][k - 1] == ws[k];
    }
  }

  /** Reload events followed by job events keep the reload check before the
      request, and every request in them is one of the job events'. */
  lemma CheckThenJobsOrdered(ce: seq<Event>, je: seq<Event>, model: Option<string>)
    requires forall k :: 0 <= k < |ce| ==> !ce[k].Requested?
    requires forall k :: 0 <= k < |je| ==> !je[k].Signalled? && !je[k].SwapRequested?
    requires forall k :: 0 <= k < |je| && je[k].Requested? ==> je[k].request.modelId == model
    ensures ReloadBeforeRequest(ce + je)
    ensures forall e :: e in ce + je && e.Requested? ==> e.request.modelId == model
  {
    var evs := ce + je;
    forall k | |ce| <= k < |evs|
      ensures evs[k] == je[k - |ce|]
    {
    }
  }

  /** Within an iteration the reload check runs before the job request:
      no signal call or swap request follows the request, and the request
      asks for the first model loaded when `process_jobs` read the list. */
  lemma StepOrdersReloadFirst(cfg: Config, st: State, w: World)
    ensures ReloadBeforeRequest(Step(cfg, st, w).events)
    ensures forall e :: e in Step(cfg, st, w).events && e.Requested? ==> e.request.modelId == First(w.loadedAtJobs)
  {
    var c := CheckAndReloadModel(cfg.reloadInterval, st.lastSignal, w.clock.signalNow, w.signal,
                                 w.localAtSignal, w.loadedAtSignal, w.reloadRaises);
    var ce := CheckEvents(cfg, c);
    var je := if c.outcome.Returned? then ProcessJobs(cfg, st.lastHeartbeat, w).events else [];
    assert Step(cfg, st, w).events == ce + je;
    CheckThenJobsOrdered(ce, je, First(w.loadedAtJobs));
  }

  /** A pass asks for a job exactly when its reload check returned and a
      model is stored locally, and the request it makes is the one
      `process_jobs` built. */
  lemma StepMakesRequest(cfg: Config, st: State, w: World)
    ensures (exists e :: e in Step(cfg, st, w).events && e.Requested?) <==>
      !Step(cfg, st, w).checkRaised && |w.localAtJobs| > 0
    ensures !Step(cfg, st, w).checkRaised && !Step(cfg, st, w).exited ==>
      var j := ProcessJobs(cfg, st.lastHeartbeat, w);
      j.request.Some? && Requested(j.request.value) in Step(cfg, st, w).events
  {
    var c := CheckAndReloadModel(cfg.reloadInterval, st.lastSignal, w.clock.signalNow, w.signal,
                                 w.localAtSignal, w.loadedAtSignal, w.reloadRaises);
    var evs := Step(cfg, st, w).events;
    if c.outcome.Returned? {
      var j := ProcessJobs(cfg, st.lastHeartbeat, w);
      assert evs == CheckEvents(cfg, c) + j.events;
      if |w.localAtJobs| > 0 {
        assert evs[|CheckEvents(cfg, c)|] == Requested(j.request.value);
      }
    } else {
      assert evs == CheckEvents(cfg, c);
    }
  }

  /** An executed iteration submitted the job it was given: the decoded
      reply was a non-empty object with `job_id`, `model_id` and
      `temp_credentials`, and the last event is its submission, carrying
      the job start time and the request's latency. */
  lemma ExecutedMeansSubmitted(cfg: Config, st: State, w: World)
    requires Step(cfg, st, w).executed
    ensures w.post.Posted? && BodyTruthy(w.post.data) && Submittable(w.post.data.value)
    ensures var evs := Step(cfg, st, w).events;
      |evs| > 0 && evs[|evs| - 1] == Submitted(Submission(cfg.minerId, w.post.data.value, w.post.data.value["temp_credentials"],
                                                          w.clock.jobStart, w.clock.sendEnd - w.clock.sendStart))
  {
    var c := CheckAndReloadModel(cfg.reloadInterval, st.lastSignal, w.clock.signalNow, w.signal,
                                 w.localAtSignal, w.loadedAtSignal, w.reloadRaises);
    var j := ProcessJobs(cfg, st.lastHeartbeat, w);
    assert Step(cfg, st, w).events == CheckEvents(cfg, c) + j.events;
    var clock := SendClock(w.clock.heartbeatNow, w.clock.heartbeatStamp, w.clock.sendStart, w.clock.sendEnd);
    var x := SendMinerRequest(cfg.minerId, First(w.loadedAtJobs), cfg.minDeadline, cfg.version, w.hardware,
                              st.lastHeartbeat, clock, w.post);
    var h := HandleReply(cfg, x.result.reply, w.clock.jobStart, w.submitRaises);
    assert j.events == [Requested(x.request)] + h.events;
  }

  /** Every job that executed was also announced with its `job_id` and
      `model_id` when the reply arrived. */
  lemma ExecutedWasAnnounced(cfg: Config, st: State, w: World)
    requires Step(cfg, st, w).executed
    ensures w.post.Posted? && w.post.data.Some?
    ensures Announced(Announcement(w.post.data.value["job_id"], w.post.data.value["model_id"])) in Step(cfg, st, w).events
  {
  }

  /** The clock reads of each iteration store a heartbeat stamp no earlier
      than the staleness test that preceded it. */
  predicate StampsFollowTests(ws: seq<World>)
  {
    forall k :: 0 <= k < |ws| ==> ws[k].clock.heartbeatStamp >= ws[k].clock.heartbeatNow
  }

  /** One iteration never moves `last_signal_time` back when the reload
      interval is not negative, and never moves `last_heartbeat` back when
      its stamp is read no earlier than its staleness test. */
  lemma StepTimestampsGrow(cfg: Config, st: State, w: World)
    ensures cfg.reloadInterval >= 0.0 ==> Step(cfg, st, w).after.lastSignal >= st.lastSignal
    ensures w.clock.heartbeatStamp >= w.clock.heartbeatNow ==> Step(cfg, st, w).after.lastHeartbeat >= st.lastHeartbeat
  {
  }

  /** Each iteration starts from the state the previous one left behind. */
  predicate Chained(trace: seq<Iteration>)
  {
    forall k :: 0 <= k < |trace| - 1 ==> trace[k + 1].before == trace[k].after
  }

  /** No pass of the trace moves `last_signal_time` back. */
  predicate SignalStepsGrow(trace: seq<Iteration>)
  {
    forall k :: 0 <= k < |trace| ==> trace[k].after.lastSignal >= trace[k].before.lastSignal
  }

  /** No pass of the trace moves `last_heartbeat` back. */
  predicate HeartbeatStepsGrow(trace: seq<Iteration>)
  {
    forall k :: 0 <= k < |trace| ==> trace[k].after.lastHeartbeat >= trace[k].before.lastHeartbeat
  }

  /** In a chained trace, a timestamp that no step moves back is, at the
      start of a later iteration, at least what an earlier one left. */
  lemma {:induction false} ChainedTimestampsGrow(trace: seq<Iteration>, i: nat, j: nat)
    requires Chained(trace)
    requires i < j < |trace|
    ensures SignalStepsGrow(trace) ==> trace[j].before.lastSignal >= trace[i].after.lastSignal
    ensures HeartbeatStepsGrow(trace) ==> trace[j].before.lastHeartbeat >= trace[i].after.lastHeartbeat
    decreases j - i
  {
    assert trace[j].before == trace[j - 1].after;
    if j > i + 1 {
      ChainedTimestampsGrow(trace, i, j - 1);
    }
  }

  /** An iteration of a run never moves a timestamp back (under the same
      conditions as a single step). */
  lemma RunStepGrows(cfg: Config, st: State, ws: seq<World>, k: nat)
    requires k < |Run(cfg, st, ws)|
    ensures cfg.reloadInterval >= 0.0 ==>
      Run(cfg, st, ws)[k].after.lastSignal >= Run(cfg, st, ws)[k].before.lastSignal
    ensures ws[k].clock.heartbeatStamp >= ws[k].clock.heartbeatNow ==>
      Run(cfg, st, ws)[k].after.lastHeartbeat >= Run(cfg, st, ws)[k].before.lastHeartbeat
  {
    var it := Run(cfg, st, ws)[k];
    RunIsSteps(cfg, st, ws, k);
    StepTimestampsGrow(cfg, it.before, ws[k]);
  }

  /** Along a run, the state a later iteration starts from is at least the
      state an earlier one left behind: `last_signal_time` when the reload
      interval is not negative, `last_heartbeat` when every stamp follows
      its staleness test. */
  lemma RunTimestampsGrow(cfg: Config, st: State, ws: seq<World>, i: nat, j: nat)
    requires i < j < |Run(cfg, st, ws)|
    ensures cfg.reloadInterval >= 0.0 ==>
      Run(cfg, st, ws)[j].before.lastSignal >= Run(cfg, st, ws)[i].after.lastSignal
    ensures StampsFollowTests(ws) ==>
      Run(cfg, st, ws)[j].before.lastHeartbeat >= Run(cfg, st, ws)[i].after.lastHeartbeat
  {
    var trace := Run(cfg, st, ws);
    assert Chained(trace);
    if cfg.reloadInterval >= 0.0 {
      forall k | 0 <= k < |trace|
        ensures trace[k].after.lastSignal >= trace[k].before.lastSignal
      {
        RunStepGrows(cfg, st, ws, k);
      }
      assert SignalStepsGrow(trace);
    }
    if StampsFollowTests(ws) {
      forall k | 0 <= k < |trace|
        ensures trace[k].after.lastHeartbeat >= trace[k].before.lastHeartbeat
      {
        RunStepGrows(cfg, st, ws, k);
      }
      assert HeartbeatStepsGrow(trace);
    }
    ChainedTimestampsGrow(trace, i, j);
  }

  /** The reload throttle over a whole run: after a check that contacted
      the signal endpoint and did not raise, the endpoint is not contacted
      again until a full reload interval has passed. A check that raises
      leaves the window where it was, so the next iteration may call again. */
  lemma SignalThrottle(cfg: Config, st: State, ws: seq<World>, i: nat, j: nat)
    requires cfg.reloadInterval >= 0.0
    requires i < j < |Run(cfg, st, ws)|
    requires Run(cfg, st, ws)[i].contacted && !Run(cfg, st, ws)[i].checkRaised
    requires Run(cfg, st, ws)[j].contacted
    ensures ws[j].clock.signalNow - ws[i].clock.signalNow >= cfg.reloadInterval
  {
    var trace := Run(cfg, st, ws);
    RunTimestampsGrow(cfg, st, ws, i, j);
    RunIsSteps(cfg, st, ws, i);
    RunIsSteps(cfg, st, ws, j);
  }

  /** The heartbeat gate over a whole run: two requests that both carry
      hardware and version are at least a heartbeat period apart, measured
      from the earlier stamp to the later staleness test. */
  lemma HeartbeatThrottle(cfg: Config, st: State, ws: seq<World>, i: nat, j: nat)
    requires StampsFollowTests(ws)
    requires i < j < |Run(cfg, st, ws)|
    requires Run(cfg, st, ws)[i].heartbeatSent && Run(cfg, st, ws)[j].heartbeatSent
    ensures ws[j].clock.heartbeatNow - ws[i].clock.heartbeatStamp >= HeartbeatPeriod
  {
    var trace := Run(cfg, st, ws);
    RunTimestampsGrow(cfg, st, ws, i, j);
    RunIsSteps(cfg, st, ws, i);
    RunIsSteps(cfg, st, ws, j);
  }

  /** Starting from `main`'s startup read, no iteration contacts the signal
      endpoint before a full reload interval has passed since startup. */
  lemma {:induction false} FirstSignalWaitsOneInterval(cfg: Config, startTime: real, lastHeartbeat: real, ws: seq<World>, j: nat)
    requires cfg.reloadInterval >= 0.0
    requires j < |Run(cfg, Initial(startTime, lastHeartbeat), ws)|
    requires Run(cfg, Initial(startTime, lastHeartbeat), ws)[j].contacted
    ensures ws[j].clock.signalNow - startTime >= cfg.reloadInterval
  {
    var st := Initial(startTime, lastHeartbeat);
    var trace := Run(cfg, st, ws);
    if j > 0 {
      RunTimestampsGrow(cfg, st, ws, 0, j);
      RunIsSteps(cfg, st, ws, 0);
    }
    RunIsSteps(cfg, st, ws, j);
  }
}
